=== FILE: README.md ===
# Cinema rooms and films: a Dafny model of the CRUD core

The application is a small HTTP API over two tables: cinema rooms ("salles")
and films ("movies"). Its behaviour is decided in three places:

- the validation schemas, which accept or reject a request's query string,
  path parameters or body;
- the two use cases:
  - a filtered, paginated listing that returns one page and the total number
    of matches;
  - a partial update that overwrites a single field only when the new value
    is truthy;
- the route handlers. Each one validates, calls storage or a use case, and
  maps the outcome to a status and a body.

This project writes each of these as pure Dafny functions over immutable
values and proves what they promise.

- The database is a value. A `Repository.Table` holds a table's rows in
  storage order and the next value of its auto-increment key. A `Routes.Db`
  holds the two tables.
- Each handler is a function from (request, database) to (status, body,
  database).
- A request field before validation is a `Joi.Value`: `Absent`, `Str`
  (text) or `Num` (a number).
- JavaScript's "is this optional number truthy" test is `Js.Truthy`. Both
  `undefined` and `0` are falsy.

Modules follow the source layout:

| module | models |
|---|---|
| `Wrappers` | `undefined`/`null` (`Option`) and validation results (`Result`) |
| `Js` | truthiness of an optional number; the text `${n}` of an integer |
| `Query` | the query builder: `andWhere`, `skip`/`take`, `getManyAndCount` |
| `Repository` | `findOneBy`, `save`, `remove`, and inserting a new row |
| `Entities` | the `Salle` and `Movie` records |
| `Joi` | the string/number rules with `required`/`optional`/`min`/`max`, and `abortEarly` |
| `SalleValidator`, `MovieValidator` | the schemas of the two validator files |
| `SalleUsecase`, `MovieUsecase` | `listSalle`/`updateSalle` and `listSalle`/`updateMovie` |
| `Routes` | the room and film routes, and a dispatcher over them |

The not-found messages and names differ by route:

- GET `/salles/:id` answers an unknown id with `product <id> not found`.
- DELETE `/movies/:id` answers an unknown id with `salle <id> not found`.
- PATCH `/salles/:id` answers an unknown id with `Salle <id> not found `,
  which ends in a space.
- The film use case's list operation is named `listSalle` in the code. Here
  it is `MovieUsecase.ListMovies`. No route calls it.

## Model

| member | source | states |
|---|---|---|
| Query.Where | APICinemaAL/src/domain/salle-usecase.ts:23-25 | the filtered rows are never more than the table's rows, and each one is a stored row that satisfies the predicate |
| Query.WhereCounts | APICinemaAL/src/domain/salle-usecase.ts:23-25 | a row that satisfies the predicate keeps exactly its number of occurrences after filtering; a row that does not disappears |
| Query.WhereAppend | APICinemaAL/src/domain/salle-usecase.ts:23-25 | filtering distributes over concatenation, so matches keep storage order |
| Query.WhereAll | APICinemaAL/src/domain/salle-usecase.ts:23 | a predicate that every row satisfies filters nothing out |
| Query.Window | APICinemaAL/src/domain/salle-usecase.ts:26-27 | skip-then-take returns min(limit, rows left after the offset) rows, and row i is the row at offset+i |
| Query.PagesArePrefix | APICinemaAL/src/domain/salle-usecase.ts:26-27 | reading pages 1..k in turn returns exactly the first k*limit rows, in order: pages neither overlap nor leave gaps |
| Query.GetManyAndCount | APICinemaAL/src/domain/salle-usecase.ts:29-33 | the total is the number of matching rows, whatever the page; the items are the matches from position `offset` on, at most `limit` of them, each one the match at offset+i, so every item is a matching stored row |
| Query.ScanManyAndCount | APICinemaAL/src/domain/salle-usecase.ts:29 | a single pass over the table returns the same count and page as filtering and then windowing |
| Repository.IndexOf | APICinemaAL/src/domain/salle-usecase.ts:37 | finds the first row with the key, and finds none exactly when no row has that key |
| Repository.FindOneBy | APICinemaAL/src/domain/salle-usecase.ts:37-38 | returns null exactly when no row has the id; otherwise returns a stored row with that id |
| Repository.Insert | APICinemaAL/src/handlers/routes.ts:60-62 | `save` of a new entity appends the row after every stored row and advances the key counter |
| Repository.Remove | APICinemaAL/src/handlers/routes.ts:87 | a missing id changes nothing; otherwise exactly the first row with that id leaves, the other rows keep their storage order, and the key counter is unchanged |
| Repository.Save | APICinemaAL/src/domain/salle-usecase.ts:44 | `save` of a found entity overwrites the stored row with the same key in place and leaves every row with another key and the key counter untouched; an entity with an unknown key is appended without advancing the counter, a branch the update use cases never reach because they save only a row they found |
| Repository.InsertKeepsValid | APICinemaAL/src/handlers/routes.ts:60-62 | a row stored under the next generated id keeps keys distinct and below the counter |
| Repository.SaveKeepsValid | APICinemaAL/src/domain/salle-usecase.ts:44 | overwriting a row in place with one of the same key keeps keys distinct |
| Repository.RemoveKeepsValid | APICinemaAL/src/handlers/routes.ts:87 | removing a row keeps keys distinct and below the counter |
| Repository.RemoveDeletes | APICinemaAL/src/handlers/routes.ts:87 | after removal, no row has the removed id |
| Repository.InsertThenFind | APICinemaAL/src/handlers/routes.ts:60-63 | a row just inserted under the generated id is the one found by that id |
| Js.NatToString | APICinemaAL/src/handlers/routes.ts:83 | the text of a natural number is non-empty decimal digits, with no leading zero |
| Js.NumberToString | APICinemaAL/src/handlers/routes.ts:83 | `${id}` is non-empty, starts with `-` exactly for a negative id, and is otherwise decimal digits with no leading zero; reading it back gives the id (see `Js.NumberToStringRoundTrip`) |
| Js.NumberToStringRoundTrip | APICinemaAL/src/handlers/routes.ts:83 | reading back the text of an id gives the id |
| Js.NumberToStringInjective | APICinemaAL/src/handlers/routes.ts:83 | two different ids never print the same text |
| Joi.Check | APICinemaAL/src/handlers/validators/salle-validator.ts:4-7 | a key reports an error exactly when its value breaks its rule; a missing required key reports `any.required`; a value of the wrong type reports `string.base` or `number.base`; a number below the minimum reports `number.min`, and one above the maximum `number.max` |
| Joi.Validate | APICinemaAL/src/handlers/validators/salle-validator.ts:3-8 | an object passes exactly when every key's value satisfies its rule; at most one error per key, and at most one in all under `abortEarly` (the library's default) |
| Joi.ValidateNamesFailingKeys | APICinemaAL/src/handlers/validators/salle-validator.ts:8 | with `abortEarly: false` the error list names exactly the keys whose value breaks their rule, each once and in declaration order |
| Joi.ValidateAppend | APICinemaAL/src/handlers/validators/salle-validator.ts:8 | with `abortEarly: false`, checking an object in two parts gives the first part's errors followed by the second part's |
| Joi.AbortEarlyKeepsFirst | APICinemaAL/src/handlers/validators/salle-validator.ts:17-20 | under the default `abortEarly` the one error reported is the first error the full check would report, and none when it would report none |
| SalleValidator.CreateSalleValidation | APICinemaAL/src/handlers/validators/salle-validator.ts:3-8 | accepts exactly when name, description and type are strings and capacity is a number in [15,30]; on failure the error list (`abortEarly: false`) names every failing key once, in schema order |
| SalleValidator.CreateCapacityBoundary | APICinemaAL/src/handlers/validators/salle-validator.ts:7 | capacity 14 fails with `number.min` 15, 31 fails with `number.max` 30, and 15 and 30 are accepted |
| SalleValidator.UpdateSalleValidation | APICinemaAL/src/handlers/validators/salle-validator.ts:17-20 | accepts exactly when id is a number and capacity is absent or at least 1, with no upper bound; on failure it reports one error, for the first failing key, as the library's default `abortEarly` does |
| SalleValidator.SalleIdValidation | APICinemaAL/src/handlers/validators/salle-validator.ts:27-29 | accepts exactly when a numeric id is given; otherwise reports `any.required` or `number.base` on `id` |
| SalleValidator.ListSalleValidation | APICinemaAL/src/handlers/validators/salle-validator.ts:35-39 | accepts any combination of absent page, limit and capacityMax, each at least 1 when given; on failure it reports one error, for the first failing key, as the library's default `abortEarly` does |
| MovieValidator.CreateMovieValidation | APICinemaAL/src/handlers/validators/movies-validator.ts:3-8 | accepts exactly when title, description and genre are strings and duration is a number; on failure the error list (`abortEarly: false`) names every failing key once, in schema order |
| MovieValidator.CreateAcceptsAnyDuration | APICinemaAL/src/handlers/validators/movies-validator.ts:6 | any duration, including 0 and negative numbers, is accepted |
| MovieValidator.MovieIdValidation | APICinemaAL/src/handlers/validators/movies-validator.ts:17-19 | accepts exactly when a numeric id is given |
| MovieValidator.UpdateMovieValidation | APICinemaAL/src/handlers/validators/movies-validator.ts:25-28 | accepts exactly when id is a number and duration is absent or any number; on failure it reports one error, for the first failing key, as the library's default `abortEarly` does |
| SalleUsecase.Matching | APICinemaAL/src/domain/salle-usecase.ts:23-25 | every matched room is a stored room within the truthy capacity bound |
| SalleUsecase.MatchingComplete | APICinemaAL/src/domain/salle-usecase.ts:23-25 | every stored room within the bound is matched, as often as it is stored, and no other room is |
| SalleUsecase.ListSalle | APICinemaAL/src/domain/salle-usecase.ts:20-34 | at most `limit` rooms, all within a truthy capacityMax; item i is match number (page-1)*limit+i; totalCount is the number of matches and is at least the page size |
| SalleUsecase.ListSalleUnbounded | APICinemaAL/src/domain/salle-usecase.ts:23 | with capacityMax missing or 0, every room matches and totalCount is the table size |
| SalleUsecase.ListSalleCountIgnoresPage | APICinemaAL/src/domain/salle-usecase.ts:29-33 | totalCount does not depend on page or limit |
| SalleUsecase.ListSalleIsWindow | APICinemaAL/src/domain/salle-usecase.ts:26-27 | the page is the offset/limit window of the matches, so consecutive pages tile them |
| SalleUsecase.UpdateSalle | APICinemaAL/src/domain/salle-usecase.ts:35-46 | an unknown id gives null and leaves the table unchanged; otherwise only that row changes, only in its capacity, and only when the new capacity is truthy |
| SalleUsecase.UpdateSalleKeepsValid | APICinemaAL/src/domain/salle-usecase.ts:40-44 | an update keeps primary keys distinct |
| MovieUsecase.Matching | APICinemaAL/src/domain/movie_usecase.ts:23-25 | every matched film is a stored film within the truthy duration bound |
| MovieUsecase.MatchingComplete | APICinemaAL/src/domain/movie_usecase.ts:23-25 | every stored film within the bound is matched, as often as it is stored, and no other film is |
| MovieUsecase.ListMovies | APICinemaAL/src/domain/movie_usecase.ts:20-34 | at most `limit` films, all within a truthy durationMax; item i is match number (page-1)*limit+i; totalCount is the number of matches |
| MovieUsecase.ListMoviesUnbounded | APICinemaAL/src/domain/movie_usecase.ts:23 | with durationMax missing or 0, every film matches |
| MovieUsecase.ListMoviesCountIgnoresPage | APICinemaAL/src/domain/movie_usecase.ts:29-33 | totalCount does not depend on page or limit |
| MovieUsecase.UpdateMovie | APICinemaAL/src/domain/movie_usecase.ts:35-46 | an unknown id gives null and leaves the table unchanged; otherwise only that row changes, only in its duration, and only when the new duration is truthy |
| MovieUsecase.UpdateMovieKeepsValid | APICinemaAL/src/domain/movie_usecase.ts:40-44 | an update keeps primary keys distinct |
| Routes.GetSalles | APICinemaAL/src/handlers/routes.ts:20-43 | 400 exactly when the query fails validation; otherwise 200 with the listing for page (default 1) and limit (default 20); storage never changes |
| Routes.GetSallesDefaults | APICinemaAL/src/handlers/routes.ts:29-33 | an empty query lists the first 20 rooms and counts the whole table |
| Routes.PostSalles | APICinemaAL/src/handlers/routes.ts:47-68 | 400 with no storage change exactly when the body is invalid; otherwise 201 with the new room under the next id, appended to the table |
| Routes.DeleteSalle | APICinemaAL/src/handlers/routes.ts:70-93 | 400 with the id schema's error details exactly on a missing or non-numeric id; 404 `salle <id> not found`, with no change, exactly when the id is unknown; otherwise 200 with the stored room, which is removed |
| Routes.GetSalle | APICinemaAL/src/handlers/routes.ts:96-117 | storage never changes; 400 with the id schema's error details exactly on a missing or non-numeric id; 404 `product <id> not found` exactly when the id is unknown; otherwise 200 with the stored room |
| Routes.MergeUpdate | APICinemaAL/src/handlers/routes.ts:121 | `{ ...req.params, ...req.body }`: the body's id wins when the body has one, otherwise the path's id is used; the capacity comes from the body. `Routes.PatchBodyIdWins` states what the precedence means for the route |
| Routes.PatchBodyIdWins | APICinemaAL/src/handlers/routes.ts:121 | a PATCH whose body carries an id behaves exactly as a PATCH on that id with no id in the body, whatever id the path names: the body's id decides which room changes |
| Routes.PatchSalle | APICinemaAL/src/handlers/routes.ts:119-152 | 400, with the update schema's error details for the merged request (naming `id` or `capacity`), exactly when that request is invalid; 404 `error: Capacity not good` on a missing or out-of-range capacity; 404 on an unknown id; 200 with the room whose capacity alone changed, within [15,30], stored at its old position while every other room, the films and the key counter stay as they were; storage changes only on 200 |
| Routes.PostMovies | APICinemaAL/src/handlers/routes.ts:159-180 | 400 with no storage change exactly when the body is invalid; otherwise 201 with the new film under the next id, appended to the table |
| Routes.DeleteMovie | APICinemaAL/src/handlers/routes.ts:207-230 | 400 with the film id schema's error details exactly on a missing or non-numeric id; 404 `salle <id> not found`, with no change, exactly when the id is unknown; otherwise 200 with the stored film, which is removed |
| Routes.GetMovie | APICinemaAL/src/handlers/routes.ts:232-253 | storage never changes; 400 with the film id schema's error details exactly on a missing or non-numeric id; 404 `movie <id> not found` exactly when the id is unknown; otherwise 200 with the stored film |
| Routes.Handle | APICinemaAL/src/handlers/routes.ts:10-296 | every route answers 200, 201, 400 or 404; a 400 or a 404 never changes storage; GET routes never change storage; each table is changed only by its own POST, DELETE or PATCH routes |
| Routes.HandleKeepsValid | APICinemaAL/src/handlers/routes.ts:10-296 | every route keeps primary keys distinct and below the id counter |
| Routes.PostThenGetSalle | APICinemaAL/src/handlers/routes.ts:55-63 | a created room is read back unchanged, under its new id |
| Routes.DeleteThenGetSalle | APICinemaAL/src/handlers/routes.ts:81-88 | after a successful delete, reading the same id gives 404 |
| Routes.PostThenGetMovie | APICinemaAL/src/handlers/routes.ts:167-175 | a created film is read back unchanged, under its new id |
| Routes.DeleteThenGetMovie | APICinemaAL/src/handlers/routes.ts:218-225 | after a successful delete, reading the same id gives 404 |
| Routes.PatchSalleStoresGoodCapacity | APICinemaAL/src/handlers/routes.ts:133-147 | after a successful PATCH, the stored room with that id has a capacity in [15,30] |
| Routes.NotFoundNamesTheId | APICinemaAL/src/handlers/routes.ts:83 | two not-found messages for different ids differ |

## Left out

- HTTP plumbing is not modelled:
  - the Express application setup and `res.send`;
  - the `/health` route;
  - `console.log`;
  - `async`/`await`.
- The 500 `Internal error` answers are not modelled. They arise only when
  storage throws, and the model's storage never fails.
- The second registration of GET `/salles` (routes.ts:182-205) is not
  modelled. Express always dispatches to the first one.
- The commented-out film PATCH route is not modelled. `MovieUsecase.UpdateMovie`,
  `MovieUsecase.ListMovies` and `MovieValidator.UpdateMovieValidation` are
  modelled on their own, since no route calls them.
- The text of a validation-error response is not modelled. It comes from
  `generateValidationErrorMessage`, which is not part of this model. The
  response carries the error details instead.
- Several behaviours of the validation library are not modelled:
  - Converting numeric text to numbers. Path parameters and query strings
    always arrive as text. The model takes numeric fields as already
    converted, and a `Str` in a numeric field stands for text that does not
    convert.
  - Rejecting unknown keys.
  - Rejecting the empty string in a string field.
  - The wording of error messages.
- Only integers are modelled. Non-integer numbers, `NaN`, `Infinity` and the
  precision limit of JavaScript numbers are not. Numbers are unbounded
  integers.
- The mapping library's internals are not modelled. This covers the SQL it
  generates and its key-generation strategy. Keys come from an
  auto-increment counter (`Table.nextId`).
- No `ORDER BY` is specified, so rows are listed in storage order, which is
  insertion order here.
- The mapping library strips the key from the entity that `remove` returns.
  This is not modelled: the body is the record as it was found.
- The file that defines the room entity is not part of this model. The fields
  of `Salle` come from the create schema and from the routes.
- SalleUsecase.ListSalle: requires page >= 1 and limit >= 1. The source
  leaves a page of 0 or less undefined (its offset would be negative). Every
  caller passes validated values, or the defaults 1 and 20.
- MovieUsecase.ListMovies: requires page >= 1 and limit >= 1, for the same
  reason.
- Concurrent requests are not modelled. Each request is a separate function
  application.

=== FILE: entities.dfy ===
/** The two stored records. Ids are generated by the database on insert. */
module Entities {

  /** A cinema room: `salle_id`, `name`, `description`, `type` and `capacity` columns. */
  datatype Salle = Salle(salle_id: int, name: string, description: string, salleType: string, capacity: int)

  /** A film: the `movie_id`, `title`, `description`, `duration` and `genre` columns. */
  datatype Movie = Movie(movie_id: int, title: string, description: string, duration: int, genre: string)

  /** Primary key of a room. */
  function SalleKey(s: Salle): int {
    s.salle_id
  }

  /** Primary key of a film. */
  function MovieKey(m: Movie): int {
    m.movie_id
  }
}

=== FILE: joi.dfy ===
/** The schema rules the validators use: a required or optional string, and
    a required or optional number with an optional inclusive minimum and
    maximum. A schema is checked key by key in declaration order. */
module Joi {
  import opened Wrappers

  /** One field of the object being validated. `Num` is a number (after the
      library's conversion of numeric text); `Str` is text that is not read
      as a number. */
  datatype Value = Absent | Str(s: string) | Num(n: int)

  datatype Rule =
    | StringRule(required: bool)
    | NumberRule(required: bool, min: Option<int>, max: Option<int>)

  /** The error kinds: `any.required`, `string.base`, `number.base`,
      `number.min` and `number.max`. */
  datatype ErrorKind = AnyRequired | StringBase | NumberBase | NumberMin(limit: int) | NumberMax(limit: int)

  /** One entry of the error details: the offending key and what it broke. */
  datatype FieldError = FieldError(path: string, kind: ErrorKind)

  /** Whether `v` satisfies `rule`. */
  predicate Accepts(rule: Rule, v: Value) {
    match rule
    case StringRule(required) => v.Str? || (v.Absent? && !required)
    case NumberRule(required, min, max) =>
      || (v.Absent? && !required)
      || (v.Num? && (min.None? || min.value <= v.n) && (max.None? || v.n <= max.value))
  }

  /** The error a key reports: a missing required key, then a value of the
      wrong type, then the minimum, then the maximum. */
  function Check(path: string, rule: Rule, v: Value): (r: Option<FieldError>)
    ensures r.None? <==> Accepts(rule, v)
    ensures r.Some? ==> r.value.path == path
    ensures r.Some? ==> (r.value.kind == AnyRequired <==> v.Absent?)
    ensures r.Some? && rule.NumberRule? && v.Num? && rule.min.Some? && v.n < rule.min.value
            ==> r.value.kind == NumberMin(rule.min.value)
    ensures r.Some? && rule.NumberRule? && v.Num? && (rule.min.None? || rule.min.value <= v.n)
            ==> rule.max.Some? && r.value.kind == NumberMax(rule.max.value)
    ensures r.Some? && rule.StringRule? && v.Num? ==> r.value.kind == StringBase
    ensures r.Some? && rule.NumberRule? && v.Str? ==> r.value.kind == NumberBase
  {
    match v
    case Absent => if rule.required then Some(FieldError(path, AnyRequired)) else None
    case Str(_) => if rule.StringRule? then None else Some(FieldError(path, NumberBase))
    case Num(n) =>
      if rule.StringRule? then Some(FieldError(path, StringBase))
      else if rule.min.Some? && n < rule.min.value then Some(FieldError(path, NumberMin(rule.min.value)))
      else if rule.max.Some? && n > rule.max.value then Some(FieldError(path, NumberMax(rule.max.value)))
      else None
  }

  /** The number in an optional numeric field that passed validation. */
  function OptionalNumber(v: Value): (r: Option<int>)
    requires !v.Str?
    ensures r.Some? <==> v.Num?
    ensures r.Some? ==> r.value == v.n
  {
    if v.Num? then Some(v.n) else None
  }

  /** The error details a key contributes: none or one. */
  function Details(e: Option<FieldError>): (r: seq<FieldError>)
    ensures |r| <= 1
  {
    match e
    case None => []
    case Some(x) => [x]
  }

  /** The keys named by a list of error details, in order. */
  function Paths(errors: seq<FieldError>): (r: seq<string>)
    ensures |r| == |errors|
    ensures forall i :: 0 <= i < |r| ==> r[i] == errors[i].path
  {
    seq(|errors|, i requires 0 <= i < |errors| => errors[i].path)
  }

  /** One key of an object schema together with the value found under it. */
  datatype Key = Key(path: string, rule: Rule, value: Value)

  /** `schema.validate(object)`: the keys are checked in declaration order;
      with `abortEarly` (the library's default) validation stops at the first
      failing key, otherwise every failing key adds its error. */
  function Validate(keys: seq<Key>, abortEarly: bool): (r: seq<FieldError>)
    ensures r == [] <==> forall i :: 0 <= i < |keys| ==> Accepts(keys[i].rule, keys[i].value)
    ensures |r| <= |keys|
    ensures abortEarly ==> |r| <= 1
    decreases |keys|
  {
    if |keys| == 0 then []
    else match Check(keys[0].path, keys[0].rule, keys[0].value)
      case None => Validate(keys[1..], abortEarly)
      case Some(e) => if abortEarly then [e] else [e] + Validate(keys[1..], abortEarly)
  }

  /** The keys whose value breaks their rule, in declaration order. */
  function FailingPaths(keys: seq<Key>): seq<string>
    decreases |keys|
  {
    if |keys| == 0 then []
    else (if Accepts(keys[0].rule, keys[0].value) then [] else [keys[0].path]) + FailingPaths(keys[1..])
  }

  /** Checking a non-empty object in full: the errors of its first key, then those of the rest. */
  lemma ValidateCons(k: Key, rest: seq<Key>)
    ensures Validate([k] + rest, false) == Details(Check(k.path, k.rule, k.value)) + Validate(rest, false)
  {
  }

  /** The failing keys of a non-empty object: its first key if it fails, then those of the rest. */
  lemma FailingPathsCons(k: Key, rest: seq<Key>)
    ensures FailingPaths([k] + rest) == (if Accepts(k.rule, k.value) then [] else [k.path]) + FailingPaths(rest)
  {
  }

  /** Without `abortEarly`, the error list names exactly the failing keys,
      each once and in declaration order. */
  lemma {:induction false} ValidateNamesFailingKeys(keys: seq<Key>)
    ensures Paths(Validate(keys, false)) == FailingPaths(keys)
    decreases |keys|
  {
    if |keys| > 0 {
      ValidateNamesFailingKeys(keys[1..]);
      var rest := Validate(keys[1..], false);
      var e := Check(keys[0].path, keys[0].rule, keys[0].value);
      if e.Some? {
        assert Paths([e.value] + rest) == [keys[0].path] + Paths(rest);
      }
    }
  }

  /** Checking an object in two parts gives the errors of the first part,
      then those of the second. */
  lemma {:induction false} ValidateAppend(a: seq<Key>, b: seq<Key>)
    ensures Validate(a + b, false) == Validate(a, false) + Validate(b, false)
    decreases |a|
  {
    if |a| == 0 {
      assert a + b == b;
    } else {
      assert (a + b)[1..] == a[1..] + b;
      ValidateAppend(a[1..], b);
    }
  }

  /** With `abortEarly`, the one error reported is the first error the full
      validation would report. */
  lemma {:induction false} AbortEarlyKeepsFirst(keys: seq<Key>)
    ensures var all := Validate(keys, false);
            Validate(keys, true) == if all == [] then [] else [all[0]]
    decreases |keys|
  {
    if |keys| > 0 {
      AbortEarlyKeepsFirst(keys[1..]);
    }
  }
}

=== FILE: js.dfy ===
/** The two JavaScript behaviours the handlers rely on: truthiness of an
    optional number and the decimal text that a template literal `${n}`
    produces for an integer. */
module Js {
  import opened Wrappers

  /** `if (x)` on a number that may be `undefined`: both `undefined` and `0`
      are falsy, every other number is truthy. */
  predicate Truthy(x: Option<int>) {
    x.Some? && x.value != 0
  }

  predicate IsDigit(c: char) {
    '0' <= c <= '9'
  }

  function DigitChar(d: nat): (c: char)
    requires d < 10
    ensures IsDigit(c)
  {
    (('0' as int) + d) as char
  }

  /** Decimal digits of a natural number, most significant first, no leading zero. */
  function NatToString(n: nat): (s: string)
    ensures |s| >= 1
    ensures forall i :: 0 <= i < |s| ==> IsDigit(s[i])
    ensures |s| > 1 ==> s[0] != '0'
    decreases n
  {
    if n < 10 then [DigitChar(n)] else NatToString(n / 10) + [DigitChar(n % 10)]
  }

  /** `${n}`: a leading minus sign for negative numbers, then the digits. */
  function NumberToString(n: int): (s: string)
    ensures |s| >= 1
    ensures n < 0 <==> s[0] == '-'
    ensures forall i :: (if n < 0 then 1 else 0) <= i < |s| ==> IsDigit(s[i])
    ensures var digits := if n < 0 then |s| - 1 else |s|;
            digits >= 1 && (digits > 1 ==> s[|s| - digits] != '0')
  {
    if n < 0 then "-" + NatToString(-n) else NatToString(n)
  }

  /** The number a string of decimal digits denotes (the reading direction of `NatToString`). */
  function DigitsValue(s: string): nat
    requires forall i :: 0 <= i < |s| ==> IsDigit(s[i])
  {
    if |s| == 0 then 0
    else
      assert IsDigit(s[|s| - 1]);
      DigitsValue(s[..|s| - 1]) * 10 + ((s[|s| - 1] as int) - ('0' as int))
  }

  /** Reading back the text of a number: the inverse of `NumberToString`. */
  function ParseNumber(s: string): int
    requires |s| >= 1
    requires forall i :: 1 <= i < |s| ==> IsDigit(s[i])
    requires s[0] == '-' || IsDigit(s[0])
  {
    var magnitude: int := if s[0] == '-' then DigitsValue(s[1..]) else DigitsValue(s);
    if s[0] == '-' then -magnitude else magnitude
  }

  lemma {:induction false} NatToStringRoundTrip(n: nat)
    ensures DigitsValue(NatToString(n)) == n
    decreases n
  {
    var s := NatToString(n);
    if n >= 10 {
      NatToStringRoundTrip(n / 10);
      assert s[..|s| - 1] == NatToString(n / 10);
    }
  }

  /** The text of a number determines the number. */
  lemma NumberToStringRoundTrip(n: int)
    ensures ParseNumber(NumberToString(n)) == n
  {
    var s := NumberToString(n);
    if n < 0 {
      assert s[1..] == NatToString(-n);
      NatToStringRoundTrip(-n);
    } else {
      NatToStringRoundTrip(n);
    }
  }

  /** Different numbers print differently, so a message naming an id names exactly one id. */
  lemma NumberToStringInjective(a: int, b: int)
    requires NumberToString(a) == NumberToString(b)
    ensures a == b
  {
    NumberToStringRoundTrip(a);
    NumberToStringRoundTrip(b);
  }
}

=== FILE: movie_usecase.dfy ===
/** Listing films with an optional duration bound and pagination, and the
    partial update of a film's duration. */
module MovieUsecase {
  import opened Wrappers
  import opened Entities
  import opened Repository
  import Query
  import Js

  /** `ListMovieFilter`: a 1-based page, a page size and the duration bound,
      which the query tests for truthiness. */
  datatype ListMovieFilter = ListMovieFilter(page: int, limit: int, durationMax: Option<int>)

  /** `UpdateMovieParams`: the one field an update may change. */
  datatype UpdateMovieParams = UpdateMovieParams(duration: Option<int>)

  /** A film passes the list filter; a falsy bound (missing or 0) lets every film through. */
  predicate WithinDuration(m: Movie, durationMax: Option<int>) {
    !Js.Truthy(durationMax) || m.duration <= durationMax.value
  }

  /** The `andWhere` condition as a predicate on rows. */
  function DurationFilter(durationMax: Option<int>): Movie -> bool {
    m => WithinDuration(m, durationMax)
  }

  /** Every film the list query matches, in storage order, before pagination. */
  function Matching(rows: seq<Movie>, durationMax: Option<int>): (r: seq<Movie>)
    ensures forall i :: 0 <= i < |r| ==> r[i] in rows && WithinDuration(r[i], durationMax)
  {
    Query.Where(rows, DurationFilter(durationMax))
  }

  /** Every row that passes the filter is matched, as often as it is stored,
      and no row that fails it is. */
  lemma MatchingComplete(rows: seq<Movie>, durationMax: Option<int>, x: Movie)
    ensures x in rows && WithinDuration(x, durationMax) ==> x in Matching(rows, durationMax)
    ensures multiset(Matching(rows, durationMax))[x] == if WithinDuration(x, durationMax) then multiset(rows)[x] else 0
  {
    Query.WhereCounts(rows, DurationFilter(durationMax), x);
  }

  /** `listSalle` of the film use case: the requested page of matching films
      and the number of all matching films. */
  function ListMovies(table: Table<Movie>, filter: ListMovieFilter): (r: Query.Listing<Movie>)
    requires filter.page >= 1 && filter.limit >= 1
    ensures |r.items| <= filter.limit
    ensures |r.items| <= r.totalCount
    ensures r.totalCount == |Matching(table.rows, filter.durationMax)|
    ensures Js.Truthy(filter.durationMax) ==>
              forall i :: 0 <= i < |r.items| ==> r.items[i].duration <= filter.durationMax.value
    ensures forall i :: 0 <= i < |r.items| ==> r.items[i] in table.rows
    ensures var offset := Query.PageOffset(filter.page, filter.limit);
            && |r.items| == (if offset >= r.totalCount then 0 else Query.Min(filter.limit, r.totalCount - offset))
            && forall i :: 0 <= i < |r.items| ==> r.items[i] == Matching(table.rows, filter.durationMax)[offset + i]
  {
    Query.GetManyAndCount(table.rows, DurationFilter(filter.durationMax), Query.PageOffset(filter.page, filter.limit), filter.limit)
  }

  /** Without a truthy bound the query matches the whole table. */
  lemma ListMoviesUnbounded(table: Table<Movie>, filter: ListMovieFilter)
    requires filter.page >= 1 && filter.limit >= 1
    requires !Js.Truthy(filter.durationMax)
    ensures Matching(table.rows, filter.durationMax) == table.rows
    ensures ListMovies(table, filter).totalCount == |table.rows|
  {
    Query.WhereAll(table.rows, DurationFilter(filter.durationMax));
  }

  /** The count does not depend on which page is asked for. */
  lemma ListMoviesCountIgnoresPage(table: Table<Movie>, a: ListMovieFilter, b: ListMovieFilter)
    requires a.page >= 1 && a.limit >= 1 && b.page >= 1 && b.limit >= 1
    requires a.durationMax == b.durationMax
    ensures ListMovies(table, a).totalCount == ListMovies(table, b).totalCount
  {
  }

  /** `updateMovie`: a missing film gives `null` and no change; otherwise the
      duration is overwritten when the new value is truthy and the row is saved. */
  function UpdateMovie(table: Table<Movie>, movieId: int, params: UpdateMovieParams): (r: (Option<Movie>, Table<Movie>))
    ensures r.0.None? <==> !Contains(table, MovieKey, movieId)
    ensures r.0.None? ==> r.1 == table
    ensures r.0.Some? ==>
              var i := IndexOf(table.rows, MovieKey, movieId).value;
              var stored := table.rows[i];
              && r.0.value.(duration := stored.duration) == stored
              && r.0.value.duration == (if Js.Truthy(params.duration) then params.duration.value else stored.duration)
              && r.1 == table.(rows := table.rows[i := r.0.value])
  {
    match FindOneBy(table, MovieKey, movieId)
    case None => (None, table)
    case Some(found) =>
      var updated := if Js.Truthy(params.duration) then found.(duration := params.duration.value) else found;
      (Some(updated), Save(table, MovieKey, updated))
  }

  /** An update keeps primary keys distinct. */
  lemma UpdateMovieKeepsValid(table: Table<Movie>, movieId: int, params: UpdateMovieParams)
    requires Valid(table, MovieKey)
    ensures Valid(UpdateMovie(table, movieId, params).1, MovieKey)
  {
  }
}

=== FILE: movies_validator.dfy ===
/** The three film schemas: create, id and update. */
module MovieValidator {
  import opened Wrappers
  import opened Joi

  /** The body of a create request, before validation. */
  datatype CreateMovieInput = CreateMovieInput(title: Value, description: Value, duration: Value, genre: Value)

  /** A validated create request. */
  datatype CreateMovieRequest = CreateMovieRequest(title: string, description: string, duration: int, genre: string)

  /** Path parameters and body of an update, merged, before validation. */
  datatype UpdateMovieInput = UpdateMovieInput(id: Value, duration: Value)

  datatype UpdateMovieRequest = UpdateMovieRequest(id: int, duration: Option<int>)

  /** A film's path parameters, before validation. */
  datatype MovieIdInput = MovieIdInput(id: Value)

  datatype MovieIdRequest = MovieIdRequest(id: int)

  /** The keys of a create body that break their rule, in schema order. */
  function CreateMovieViolations(input: CreateMovieInput): seq<string> {
    (if input.title.Str? then [] else ["title"])
    + (if input.description.Str? then [] else ["description"])
    + (if input.duration.Num? then [] else ["duration"])
    + (if input.genre.Str? then [] else ["genre"])
  }

  /** `createMovieValidation`: three required strings and a required
      duration of any value; every failing key is reported (`abortEarly: false`). */
  function CreateMovieValidation(input: CreateMovieInput): (r: Result<CreateMovieRequest, seq<FieldError>>)
    ensures r.Success? <==> input.title.Str? && input.description.Str? && input.duration.Num? && input.genre.Str?
    ensures r.Success? ==>
              r.value == CreateMovieRequest(input.title.s, input.description.s, input.duration.n, input.genre.s)
    ensures r.Failure? ==> Paths(r.error) == CreateMovieViolations(input)
  {
    var title := Key("title", StringRule(true), input.title);
    var description := Key("description", StringRule(true), input.description);
    var duration := Key("duration", NumberRule(true, None, None), input.duration);
    var genre := Key("genre", StringRule(true), input.genre);
    var keys := [title, description, duration, genre];
    ValidateNamesFailingKeys(keys);
    FailingPathsCons(title, [description, duration, genre]);
    FailingPathsCons(description, [duration, genre]);
    FailingPathsCons(duration, [genre]);
    FailingPathsCons(genre, []);
    assert FailingPaths(keys) == CreateMovieViolations(input);
    var details := Validate(keys, false);
    if details != [] then Failure(details)
    else Success(CreateMovieRequest(input.title.s, input.description.s, input.duration.n, input.genre.s))
  }

  /** No range is placed on the duration: zero and negative numbers pass. */
  lemma CreateAcceptsAnyDuration(title: string, description: string, duration: int, genre: string)
    ensures CreateMovieValidation(CreateMovieInput(Str(title), Str(description), Num(duration), Str(genre)))
            == Success(CreateMovieRequest(title, description, duration, genre))
  {
  }

  /** `movieIdValidation`: a required numeric id. */
  function MovieIdValidation(input: MovieIdInput): (r: Result<MovieIdRequest, seq<FieldError>>)
    ensures r.Success? <==> input.id.Num?
    ensures r.Success? ==> r.value.id == input.id.n
    ensures r.Failure? ==> r.error == [FieldError("id", if input.id.Absent? then AnyRequired else NumberBase)]
  {
    var details := Validate([Key("id", NumberRule(true, None, None), input.id)], true);
    if details != [] then Failure(details)
    else Success(MovieIdRequest(input.id.n))
  }

  /** `updateMovieValidation`: a required numeric id and an optional duration
      with no range; only the first failing key is reported. */
  function UpdateMovieValidation(input: UpdateMovieInput): (r: Result<UpdateMovieRequest, seq<FieldError>>)
    ensures r.Success? <==> input.id.Num? && !input.duration.Str?
    ensures r.Success? ==> r.value.id == input.id.n
    ensures r.Success? ==> (r.value.duration.Some? <==> input.duration.Num?)
    ensures r.Success? && input.duration.Num? ==> r.value.duration == Some(input.duration.n)
    ensures r.Failure? ==> |r.error| == 1 && r.error[0].path == if input.id.Num? then "duration" else "id"
  {
    var id := Key("id", NumberRule(true, None, None), input.id);
    var duration := Key("duration", NumberRule(false, None, None), input.duration);
    var keys := [id, duration];
    ValidateNamesFailingKeys(keys);
    AbortEarlyKeepsFirst(keys);
    FailingPathsCons(id, [duration]);
    FailingPathsCons(duration, []);
    var details := Validate(keys, true);
    if details != [] then Failure(details)
    else Success(UpdateMovieRequest(input.id.n, OptionalNumber(input.duration)))
  }
}

=== FILE: query.dfy ===
/** The part of the query builder the use cases rely on: an optional
    `andWhere` predicate, `skip`/`take` pagination and `getManyAndCount`,
    over a table held as a sequence in storage order. */
module Query {

  function Min(a: int, b: int): int {
    if a <= b then a else b
  }

  /** The rows of `s` that satisfy `keep`, in storage order (`andWhere`). */
  function Where<T>(s: seq<T>, keep: T -> bool): (r: seq<T>)
    ensures |r| <= |s|
    ensures forall i :: 0 <= i < |r| ==> keep(r[i]) && r[i] in s
    decreases |s|
  {
    if |s| == 0 then []
    else if keep(s[0]) then [s[0]] + Where(s[1..], keep)
    else Where(s[1..], keep)
  }

  /** Each row occurs in the result as often as in the table when it satisfies
      `keep`, and not at all otherwise: nothing is lost, duplicated or invented. */
  lemma {:induction false} WhereCounts<T>(s: seq<T>, keep: T -> bool, x: T)
    ensures multiset(Where(s, keep))[x] == if keep(x) then multiset(s)[x] else 0
    decreases |s|
  {
    if |s| > 0 {
      WhereCounts(s[1..], keep, x);
      assert s == [s[0]] + s[1..];
    }
  }

  /** Filtering distributes over concatenation, so it keeps storage order. */
  lemma {:induction false} WhereAppend<T>(a: seq<T>, b: seq<T>, keep: T -> bool)
    ensures Where(a + b, keep) == Where(a, keep) + Where(b, keep)
    decreases |a|
  {
    if |a| == 0 {
      assert a + b == b;
    } else {
      assert (a + b)[1..] == a[1..] + b;
      WhereAppend(a[1..], b, keep);
    }
  }

  /** A predicate every row satisfies filters nothing out. */
  lemma {:induction false} WhereAll<T>(s: seq<T>, keep: T -> bool)
    requires forall i :: 0 <= i < |s| ==> keep(s[i])
    ensures Where(s, keep) == s
    decreases |s|
  {
    if |s| > 0 {
      WhereAll(s[1..], keep);
    }
  }

  /** Filtering a table that grew by one row. */
  lemma WhereSnoc<T>(m: seq<T>, x: T, keep: T -> bool)
    ensures Where(m + [x], keep) == Where(m, keep) + (if keep(x) then [x] else [])
  {
    WhereAppend(m, [x], keep);
    assert Where([x], keep) == if keep(x) then [x] else [] by {
      assert [x][1..] == [];
    }
  }

  /** `skip(offset)` followed by `take(limit)`. */
  function Window<T>(s: seq<T>, offset: nat, limit: nat): (r: seq<T>)
    ensures |r| == if offset >= |s| then 0 else Min(limit, |s| - offset)
    ensures forall i :: 0 <= i < |r| ==> r[i] == s[offset + i]
  {
    if offset >= |s| then []
    else if offset + limit >= |s| then s[offset..]
    else s[offset..offset + limit]
  }

  /** The 1-based page `page` of `limit` rows starts at `(page - 1) * limit`. */
  function PageOffset(page: int, limit: int): (offset: nat)
    requires page >= 1 && limit >= 1
  {
    (page - 1) * limit
  }

  /** Pages 1 to `k` read one after another. */
  function Pages<T>(s: seq<T>, k: nat, limit: nat): seq<T>
    requires limit >= 1
  {
    if k == 0 then [] else Pages(s, k - 1, limit) + Window(s, PageOffset(k, limit), limit)
  }

  /** Reading pages 1..k returns the first k*limit rows, each once and in
      order: pages neither overlap nor leave gaps. */
  lemma {:induction false} PagesArePrefix<T>(s: seq<T>, k: nat, limit: nat)
    requires limit >= 1
    ensures Pages(s, k, limit) == s[..Min(|s|, k * limit)]
    decreases k
  {
    if k > 0 {
      PagesArePrefix(s, k - 1, limit);
      var lo := PageOffset(k, limit);
      assert lo == (k - 1) * limit;
      if lo < |s| {
        assert Window(s, lo, limit) == s[lo..Min(|s|, k * limit)];
        assert s[..lo] + s[lo..Min(|s|, k * limit)] == s[..Min(|s|, k * limit)];
      } else {
        assert Min(|s|, (k - 1) * limit) == |s|;
        assert (k - 1) * limit <= k * limit;
      }
    }
  }

  /** One page of matching rows together with the number of all matching rows. */
  datatype Listing<T> = Listing(items: seq<T>, totalCount: nat)

  /** `getManyAndCount`: the window of the filtered rows, and the size of the
      filtered set before pagination. */
  function GetManyAndCount<T>(s: seq<T>, keep: T -> bool, offset: nat, limit: nat): (r: Listing<T>)
    ensures |r.items| <= limit
    ensures |r.items| <= r.totalCount <= |s|
    ensures r.totalCount == |Where(s, keep)|
    ensures |r.items| == if offset >= r.totalCount then 0 else Min(limit, r.totalCount - offset)
    ensures forall i :: 0 <= i < |r.items| ==> r.items[i] == Where(s, keep)[offset + i]
    ensures forall i :: 0 <= i < |r.items| ==> keep(r.items[i]) && r.items[i] in s
  {
    var matching := Where(s, keep);
    var items := Window(matching, offset, limit);
    Listing(items, |matching|)
  }

  /** Appending one row to the filtered rows adds it to the window exactly
      when its position falls inside the window. */
  lemma WindowExtend<T>(m: seq<T>, x: T, offset: nat, limit: nat)
    ensures Window(m + [x], offset, limit)
         == Window(m, offset, limit) + (if offset <= |m| < offset + limit then [x] else [])
  {
  }

  /** A single pass over the table that counts the matching rows and keeps
      those falling inside the window, as the database executes the query. */
  method ScanManyAndCount<T>(s: seq<T>, keep: T -> bool, offset: nat, limit: nat) returns (items: seq<T>, count: nat)
    ensures count == |Where(s, keep)|
    ensures items == Window(Where(s, keep), offset, limit)
  {
    items := [];
    count := 0;
    var i := 0;
    while i < |s|
      invariant 0 <= i <= |s|
      invariant count == |Where(s[..i], keep)|
      invariant items == Window(Where(s[..i], keep), offset, limit)
    {
      ghost var before := Where(s[..i], keep);
      WhereSnoc(s[..i], s[i], keep);
      assert s[..i + 1] == s[..i] + [s[i]];
      if keep(s[i]) {
        assert Where(s[..i + 1], keep) == before + [s[i]];
        WindowExtend(before, s[i], offset, limit);
        if offset <= count < offset + limit {
          items := items + [s[i]];
        }
        count := count + 1;
      } else {
        assert Where(s[..i + 1], keep) == before;
      }
      i := i + 1;
    }
    assert s[..i] == s;
  }
}

=== FILE: repository.dfy ===
/** A repository of one entity type: the rows in storage order and the next
    value of the auto-increment primary key. `key` extracts a row's primary key. */
module Repository {
  import opened Wrappers

  datatype Table<T> = Table(rows: seq<T>, nextId: int)

  /** Primary keys are distinct and all below the next generated id. */
  ghost predicate Valid<T>(t: Table<T>, key: T -> int) {
    && (forall i, j :: 0 <= i < j < |t.rows| ==> key(t.rows[i]) != key(t.rows[j]))
    && (forall i :: 0 <= i < |t.rows| ==> key(t.rows[i]) < t.nextId)
  }

  /** Some row has primary key `id`. */
  predicate Contains<T>(t: Table<T>, key: T -> int, id: int) {
    exists i :: 0 <= i < |t.rows| && key(t.rows[i]) == id
  }

  /** Position of the first row whose primary key is `id`. */
  function IndexOf<T>(rows: seq<T>, key: T -> int, id: int): (r: Option<nat>)
    ensures r.None? <==> forall j :: 0 <= j < |rows| ==> key(rows[j]) != id
    ensures r.Some? ==> r.value < |rows| && key(rows[r.value]) == id
    ensures r.Some? ==> forall j :: 0 <= j < r.value ==> key(rows[j]) != id
    decreases |rows|
  {
    if |rows| == 0 then None
    else if key(rows[0]) == id then Some(0)
    else match IndexOf(rows[1..], key, id)
      case None => None
      case Some(k) => Some(k + 1)
  }

  /** `findOneBy({ id })`: the row with that primary key, or `null`. */
  function FindOneBy<T>(t: Table<T>, key: T -> int, id: int): (r: Option<T>)
    ensures r.Some? <==> Contains(t, key, id)
    ensures r.Some? ==> r.value in t.rows && key(r.value) == id
  {
    match IndexOf(t.rows, key, id)
    case None => None
    case Some(i) => Some(t.rows[i])
  }

  /** `save` of a new entity: the row is stored last under the next generated id. */
  function Insert<T>(t: Table<T>, row: T): (r: Table<T>)
    ensures r.rows == t.rows + [row]
    ensures r.nextId > t.nextId
  {
    Table(t.rows + [row], t.nextId + 1)
  }

  /** `save` of an entity: the stored row with the same key is overwritten in
      place; an entity with an unknown key is inserted. */
  function Save<T>(t: Table<T>, key: T -> int, row: T): (r: Table<T>)
    ensures IndexOf(t.rows, key, key(row)).Some? ==>
              r == t.(rows := t.rows[IndexOf(t.rows, key, key(row)).value := row])
    ensures IndexOf(t.rows, key, key(row)).None? ==> r == t.(rows := t.rows + [row])
    ensures forall i :: 0 <= i < |t.rows| && key(t.rows[i]) != key(row) ==> r.rows[i] == t.rows[i]
    ensures row in r.rows
  {
    match IndexOf(t.rows, key, key(row))
    case None => Table(t.rows + [row], t.nextId)
    case Some(i) =>
      assert t.rows[i := row][i] == row;
      t.(rows := t.rows[i := row])
  }

  /** `remove`: the row with the given key leaves the table; the others keep their order. */
  function Remove<T>(t: Table<T>, key: T -> int, id: int): (r: Table<T>)
    ensures !Contains(t, key, id) ==> r == t
    ensures Contains(t, key, id) ==> |r.rows| == |t.rows| - 1
    ensures Contains(t, key, id) ==>
              var i := IndexOf(t.rows, key, id).value;
              forall j :: 0 <= j < |r.rows| ==> r.rows[j] == t.rows[if j < i then j else j + 1]
    ensures forall x :: x in r.rows ==> x in t.rows
    ensures r.nextId == t.nextId
  {
    match IndexOf(t.rows, key, id)
    case None => t
    case Some(i) => t.(rows := t.rows[..i] + t.rows[i + 1..])
  }

  /** Inserting under the next generated id keeps keys distinct and below the counter. */
  lemma InsertKeepsValid<T>(t: Table<T>, key: T -> int, row: T)
    requires Valid(t, key)
    requires key(row) == t.nextId
    ensures Valid(Insert(t, row), key)
  {
  }

  /** Overwriting a row with one of the same key keeps the table valid. */
  lemma SaveKeepsValid<T>(t: Table<T>, key: T -> int, row: T)
    requires Valid(t, key)
    requires Contains(t, key, key(row))
    ensures Valid(Save(t, key, row), key)
  {
  }

  /** Removing a row keeps the table valid. */
  lemma RemoveKeepsValid<T>(t: Table<T>, key: T -> int, id: int)
    requires Valid(t, key)
    ensures Valid(Remove(t, key, id), key)
  {
  }

  /** In a valid table, a removed key is gone. */
  lemma RemoveDeletes<T>(t: Table<T>, key: T -> int, id: int)
    requires Valid(t, key)
    ensures !Contains(Remove(t, key, id), key, id)
  {
  }

  /** A row inserted under the next generated id is the one found by that id. */
  lemma InsertThenFind<T>(t: Table<T>, key: T -> int, row: T)
    requires Valid(t, key)
    requires key(row) == t.nextId
    ensures FindOneBy(Insert(t, row), key, key(row)) == Some(row)
  {
    var r := Insert(t, row);
    assert key(r.rows[|t.rows|]) == key(row);
  }
}

=== FILE: routes.dfy ===
/** The room and film routes as pure functions from a request and the
    database to a status, a response body and the database afterwards.
    Each validates first (400 on failure, before any storage call), then
    reads or changes storage, then maps "not found" to 404. */
module Routes {
  import opened Wrappers
  import opened Entities
  import opened Repository
  import opened Joi
  import Js
  import Query
  import SalleValidator
  import MovieValidator
  import SalleUsecase
  import MovieUsecase

  /** The two tables. */
  datatype Db = Db(salles: Table<Salle>, movies: Table<Movie>)

  ghost predicate ValidDb(db: Db) {
    Valid(db.salles, SalleKey) && Valid(db.movies, MovieKey)
  }

  /** What a handler sends back. `ValidationDetails` stands for the message
      built from the error details, whose wording is not modelled. */
  datatype Body =
    | SalleList(listing: Query.Listing<Salle>)
    | SalleRecord(salle: Salle)
    | MovieRecord(movie: Movie)
    | ErrorObject(error: string)
    | Text(text: string)
    | ValidationDetails(details: seq<FieldError>)

  datatype Reply = Reply(status: int, body: Body, db: Db)

  /** The requests the application routes. */
  datatype Request =
    | SallesGet(query: SalleValidator.ListSalleInput)
    | SallesPost(body: SalleValidator.CreateSalleInput)
    | SalleDelete(params: SalleValidator.IdInput)
    | SalleGet(params: SalleValidator.IdInput)
    | SallePatch(params: SalleValidator.IdInput, patch: SalleValidator.UpdateSalleInput)
    | MoviesPost(movieBody: MovieValidator.CreateMovieInput)
    | MovieDelete(movieParams: MovieValidator.MovieIdInput)
    | MovieGet(movieParams: MovieValidator.MovieIdInput)

  const DefaultLimit := 20
  const DefaultPage := 1
  const CapacityNotGood := "error: Capacity not good"

  /** `${entity} ${id} not found` */
  function NotFound(entity: string, id: int): string {
    entity + " " + Js.NumberToString(id) + " not found"
  }

  /** GET /salles: validate the query string, default `limit` (when falsy) to
      20 and `page` (when missing) to 1, and list. */
  function GetSalles(query: SalleValidator.ListSalleInput, db: Db): (r: Reply)
    ensures r.db == db
    ensures r.status == 400 || r.status == 200
    ensures r.status == 400 <==>
              !(SalleValidator.PositiveIfGiven(query.page) && SalleValidator.PositiveIfGiven(query.limit)
                && SalleValidator.PositiveIfGiven(query.capacityMax))
    ensures r.status == 400 ==> r.body == ValidationDetails(SalleValidator.ListSalleValidation(query).error)
    ensures r.status == 200 ==>
              var page := if query.page.Num? then query.page.n else DefaultPage;
              var limit := if query.limit.Num? then query.limit.n else DefaultLimit;
              && page >= 1 && limit >= 1
              && r.body == SalleList(SalleUsecase.ListSalle(db.salles,
                   SalleUsecase.ListSalleFilter(page, limit, OptionalNumber(query.capacityMax))))
  {
    match SalleValidator.ListSalleValidation(query)
    case Failure(details) => Reply(400, ValidationDetails(details), db)
    case Success(request) =>
      var limit := if Js.Truthy(request.limit) then request.limit.value else DefaultLimit;
      var page := request.page.GetOr(DefaultPage);
      Reply(200, SalleList(SalleUsecase.ListSalle(db.salles, SalleUsecase.ListSalleFilter(page, limit, request.capacityMax))), db)
  }

  /** An empty query string lists the first 20 rooms and counts them all. */
  lemma GetSallesDefaults(db: Db)
    ensures var r := GetSalles(SalleValidator.ListSalleInput(Absent, Absent, Absent), db);
            && r.status == 200
            && r.body.listing.totalCount == |db.salles.rows|
            && r.body.listing.items == db.salles.rows[..Query.Min(DefaultLimit, |db.salles.rows|)]
  {
    var filter := SalleUsecase.ListSalleFilter(DefaultPage, DefaultLimit, None);
    SalleUsecase.ListSalleUnbounded(db.salles, filter);
    var items := SalleUsecase.ListSalle(db.salles, filter).items;
    assert items == db.salles.rows[..Query.Min(DefaultLimit, |db.salles.rows|)];
  }

  /** POST /salles: validate the body and store it as a new room. */
  function PostSalles(body: SalleValidator.CreateSalleInput, db: Db): (r: Reply)
    ensures r.status == 400 || r.status == 201
    ensures r.status == 201 <==> SalleValidator.CreateSalleValidation(body).Success?
    ensures r.status == 400 ==> r.db == db && r.body == ValidationDetails(SalleValidator.CreateSalleValidation(body).error)
    ensures r.status == 201 ==>
              && r.body.SalleRecord?
              && r.body.salle == Salle(db.salles.nextId, body.name.s, body.description.s, body.salleType.s, body.capacity.n)
              && SalleValidator.MinCreateCapacity <= r.body.salle.capacity <= SalleValidator.MaxCreateCapacity
              && r.db.salles.rows == db.salles.rows + [r.body.salle]
              && r.db.movies == db.movies
  {
    match SalleValidator.CreateSalleValidation(body)
    case Failure(details) => Reply(400, ValidationDetails(details), db)
    case Success(request) =>
      var salle := Salle(db.salles.nextId, request.name, request.description, request.salleType, request.capacity);
      Reply(201, SalleRecord(salle), db.(salles := Insert(db.salles, salle)))
  }

  /** DELETE /salles/:id: 404 for an unknown id, otherwise remove the room and return it. */
  function DeleteSalle(params: SalleValidator.IdInput, db: Db): (r: Reply)
    ensures r.status == 400 || r.status == 404 || r.status == 200
    ensures r.status == 400 <==> !params.id.Num?
    ensures r.status == 400 ==> r.body == ValidationDetails(SalleValidator.SalleIdValidation(params).error)
    ensures r.status == 404 <==> params.id.Num? && !Contains(db.salles, SalleKey, params.id.n)
    ensures r.status != 200 ==> r.db == db
    ensures r.status == 404 ==> r.body == ErrorObject(NotFound("salle", params.id.n))
    ensures r.status == 200 ==>
              && r.body.SalleRecord? && r.body.salle in db.salles.rows && r.body.salle.salle_id == params.id.n
              && r.db == db.(salles := Remove(db.salles, SalleKey, params.id.n))
  {
    match SalleValidator.SalleIdValidation(params)
    case Failure(details) => Reply(400, ValidationDetails(details), db)
    case Success(request) =>
      match FindOneBy(db.salles, SalleKey, request.id)
      case None => Reply(404, ErrorObject(NotFound("salle", request.id)), db)
      case Some(salle) => Reply(200, SalleRecord(salle), db.(salles := Remove(db.salles, SalleKey, request.id)))
  }

  /** GET /salles/:id: the room, or 404 with a message that calls it a product. */
  function GetSalle(params: SalleValidator.IdInput, db: Db): (r: Reply)
    ensures r.db == db
    ensures r.status == 400 || r.status == 404 || r.status == 200
    ensures r.status == 400 <==> !params.id.Num?
    ensures r.status == 400 ==> r.body == ValidationDetails(SalleValidator.SalleIdValidation(params).error)
    ensures r.status == 404 <==> params.id.Num? && !Contains(db.salles, SalleKey, params.id.n)
    ensures r.status == 404 ==> r.body == ErrorObject(NotFound("product", params.id.n))
    ensures r.status == 200 ==>
              r.body.SalleRecord? && r.body.salle in db.salles.rows && r.body.salle.salle_id == params.id.n
  {
    match SalleValidator.SalleIdValidation(params)
    case Failure(details) => Reply(400, ValidationDetails(details), db)
    case Success(request) =>
      match FindOneBy(db.salles, SalleKey, request.id)
      case None => Reply(404, ErrorObject(NotFound("product", request.id)), db)
      case Some(salle) => Reply(200, SalleRecord(salle), db)
  }

  /** `{ ...req.params, ...req.body }`: a key present in the body wins. */
  function MergeUpdate(params: SalleValidator.IdInput, patch: SalleValidator.UpdateSalleInput): (r: SalleValidator.UpdateSalleInput)
    ensures r.id == (if patch.id.Absent? then params.id else patch.id)
    ensures r.capacity == patch.capacity
  {
    SalleValidator.UpdateSalleInput(if patch.id.Absent? then params.id else patch.id, patch.capacity)
  }

  /** A capacity the PATCH route lets through to the update. */
  predicate CapacityGood(capacity: Value) {
    capacity.Num? && SalleValidator.MinCreateCapacity <= capacity.n <= SalleValidator.MaxCreateCapacity
  }

  /** PATCH /salles/:id: validate the merged parameters, refuse with 404 a
      capacity that is missing or outside [15, 30], then update. */
  function PatchSalle(params: SalleValidator.IdInput, patch: SalleValidator.UpdateSalleInput, db: Db): (r: Reply)
    ensures r.status == 400 || r.status == 404 || r.status == 200
    ensures var merged := MergeUpdate(params, patch);
            r.status == 400 <==> !(merged.id.Num? && SalleValidator.PositiveIfGiven(merged.capacity))
    ensures r.status == 400 ==> r.body == ValidationDetails(SalleValidator.UpdateSalleValidation(MergeUpdate(params, patch)).error)
    ensures r.status != 200 ==> r.db == db
    ensures r.status != 400 && !CapacityGood(patch.capacity) ==> r.status == 404 && r.body == Text(CapacityNotGood)
    ensures r.status != 400 && CapacityGood(patch.capacity) ==>
              var id := MergeUpdate(params, patch).id.n;
              && (r.status == 404 <==> !Contains(db.salles, SalleKey, id))
              && (r.status == 404 ==> r.body == ErrorObject(NotFound("Salle", id) + " "))
    ensures r.status == 200 ==>
              var id := MergeUpdate(params, patch).id.n;
              && r.body.SalleRecord?
              && r.body.salle.salle_id == id
              && r.body.salle.capacity == patch.capacity.n
              && SalleValidator.MinCreateCapacity <= r.body.salle.capacity <= SalleValidator.MaxCreateCapacity
              && FindOneBy(db.salles, SalleKey, id).Some?
              && r.body.salle == FindOneBy(db.salles, SalleKey, id).value.(capacity := patch.capacity.n)
              && r.db.movies == db.movies
              && r.body.salle in r.db.salles.rows
    ensures r.status == 200 ==>
              var i := IndexOf(db.salles.rows, SalleKey, MergeUpdate(params, patch).id.n).value;
              r.db == db.(salles := db.salles.(rows := db.salles.rows[i := r.body.salle]))
  {
    match SalleValidator.UpdateSalleValidation(MergeUpdate(params, patch))
    case Failure(details) => Reply(400, ValidationDetails(details), db)
    case Success(request) =>
      if request.capacity.None?
         || request.capacity.value < SalleValidator.MinCreateCapacity
         || request.capacity.value > SalleValidator.MaxCreateCapacity
      then Reply(404, Text(CapacityNotGood), db)
      else
        var (updated, salles) := SalleUsecase.UpdateSalle(db.salles, request.id, SalleUsecase.UpdateSalleParams(request.capacity));
        match updated
        case None => Reply(404, ErrorObject(NotFound("Salle", request.id) + " "), db)
        case Some(salle) => Reply(200, SalleRecord(salle), db.(salles := salles))
  }

  /** POST /movies: validate the body and store it as a new film. */
  function PostMovies(body: MovieValidator.CreateMovieInput, db: Db): (r: Reply)
    ensures r.status == 400 || r.status == 201
    ensures r.status == 201 <==> MovieValidator.CreateMovieValidation(body).Success?
    ensures r.status == 400 ==> r.db == db && r.body == ValidationDetails(MovieValidator.CreateMovieValidation(body).error)
    ensures r.status == 201 ==>
              && r.body.MovieRecord?
              && r.body.movie == Movie(db.movies.nextId, body.title.s, body.description.s, body.duration.n, body.genre.s)
              && r.db.movies.rows == db.movies.rows + [r.body.movie]
              && r.db.salles == db.salles
  {
    match MovieValidator.CreateMovieValidation(body)
    case Failure(details) => Reply(400, ValidationDetails(details), db)
    case Success(request) =>
      var movie := Movie(db.movies.nextId, request.title, request.description, request.duration, request.genre);
      Reply(201, MovieRecord(movie), db.(movies := Insert(db.movies, movie)))
  }

  /** DELETE /movies/:id: 404 for an unknown id (with a message that calls it
      a salle), otherwise remove the film and return it. */
  function DeleteMovie(params: MovieValidator.MovieIdInput, db: Db): (r: Reply)
    ensures r.status == 400 || r.status == 404 || r.status == 200
    ensures r.status == 400 <==> !params.id.Num?
    ensures r.status == 400 ==> r.body == ValidationDetails(MovieValidator.MovieIdValidation(params).error)
    ensures r.status == 404 <==> params.id.Num? && !Contains(db.movies, MovieKey, params.id.n)
    ensures r.status != 200 ==> r.db == db
    ensures r.status == 404 ==> r.body == ErrorObject(NotFound("salle", params.id.n))
    ensures r.status == 200 ==>
              && r.body.MovieRecord? && r.body.movie in db.movies.rows && r.body.movie.movie_id == params.id.n
              && r.db == db.(movies := Remove(db.movies, MovieKey, params.id.n))
  {
    match MovieValidator.MovieIdValidation(params)
    case Failure(details) => Reply(400, ValidationDetails(details), db)
    case Success(request) =>
      match FindOneBy(db.movies, MovieKey, request.id)
      case None => Reply(404, ErrorObject(NotFound("salle", request.id)), db)
      case Some(movie) => Reply(200, MovieRecord(movie), db.(movies := Remove(db.movies, MovieKey, request.id)))
  }

  /** GET /movies/:id: the film, or 404. */
  function GetMovie(params: MovieValidator.MovieIdInput, db: Db): (r: Reply)
    ensures r.db == db
    ensures r.status == 400 || r.status == 404 || r.status == 200
    ensures r.status == 400 <==> !params.id.Num?
    ensures r.status == 400 ==> r.body == ValidationDetails(MovieValidator.MovieIdValidation(params).error)
    ensures r.status == 404 <==> params.id.Num? && !Contains(db.movies, MovieKey, params.id.n)
    ensures r.status == 404 ==> r.body == ErrorObject(NotFound("movie", params.id.n))
    ensures r.status == 200 ==>
              r.body.MovieRecord? && r.body.movie in db.movies.rows && r.body.movie.movie_id == params.id.n
  {
    match MovieValidator.MovieIdValidation(params)
    case Failure(details) => Reply(400, ValidationDetails(details), db)
    case Success(request) =>
      match FindOneBy(db.movies, MovieKey, request.id)
      case None => Reply(404, ErrorObject(NotFound("movie", request.id)), db)
      case Some(movie) => Reply(200, MovieRecord(movie), db)
  }

  /** Dispatch on method and path. */
  function Handle(request: Request, db: Db): (r: Reply)
    ensures r.status in {200, 201, 400, 404}
    ensures r.status == 400 || r.status == 404 ==> r.db == db
    ensures request.SallesGet? || request.SalleGet? || request.MovieGet? ==> r.db == db
    ensures r.db.movies != db.movies ==> request.MoviesPost? || request.MovieDelete?
    ensures r.db.salles != db.salles ==> request.SallesPost? || request.SalleDelete? || request.SallePatch?
  {
    match request
    case SallesGet(query) => GetSalles(query, db)
    case SallesPost(body) => PostSalles(body, db)
    case SalleDelete(params) => DeleteSalle(params, db)
    case SalleGet(params) => GetSalle(params, db)
    case SallePatch(params, patch) => PatchSalle(params, patch, db)
    case MoviesPost(body) => PostMovies(body, db)
    case MovieDelete(params) => DeleteMovie(params, db)
    case MovieGet(params) => GetMovie(params, db)
  }

  /** Every route keeps primary keys distinct and below the id counter. */
  lemma HandleKeepsValid(request: Request, db: Db)
    requires ValidDb(db)
    ensures ValidDb(Handle(request, db).db)
  {
    var r := Handle(request, db);
    match request
    case SallesPost(body) =>
      if r.status == 201 {
        InsertKeepsValid(db.salles, SalleKey, r.body.salle);
      }
    case SalleDelete(params) =>
      if r.status == 200 {
        RemoveKeepsValid(db.salles, SalleKey, params.id.n);
      }
    case SallePatch(params, patch) =>
      if r.status == 200 {
        SalleUsecase.UpdateSalleKeepsValid(db.salles, MergeUpdate(params, patch).id.n,
          SalleUsecase.UpdateSalleParams(Some(patch.capacity.n)));
      }
    case MoviesPost(body) =>
      if r.status == 201 {
        InsertKeepsValid(db.movies, MovieKey, r.body.movie);
      }
    case MovieDelete(params) =>
      if r.status == 200 {
        RemoveKeepsValid(db.movies, MovieKey, params.id.n);
      }
    case _ =>
  }

  /** A created room is read back by its new id. */
  lemma PostThenGetSalle(body: SalleValidator.CreateSalleInput, db: Db)
    requires ValidDb(db)
    requires PostSalles(body, db).status == 201
    ensures var created := PostSalles(body, db);
            GetSalle(SalleValidator.IdInput(Num(created.body.salle.salle_id)), created.db)
            == Reply(200, created.body, created.db)
  {
    var created := PostSalles(body, db);
    InsertThenFind(db.salles, SalleKey, created.body.salle);
  }

  /** After a room is deleted, reading it gives 404. */
  lemma DeleteThenGetSalle(params: SalleValidator.IdInput, db: Db)
    requires ValidDb(db)
    requires DeleteSalle(params, db).status == 200
    ensures GetSalle(params, DeleteSalle(params, db).db).status == 404
  {
  }

  /** A created film is read back by its new id. */
  lemma PostThenGetMovie(body: MovieValidator.CreateMovieInput, db: Db)
    requires ValidDb(db)
    requires PostMovies(body, db).status == 201
    ensures var created := PostMovies(body, db);
            GetMovie(MovieValidator.MovieIdInput(Num(created.body.movie.movie_id)), created.db)
            == Reply(200, created.body, created.db)
  {
    var created := PostMovies(body, db);
    InsertThenFind(db.movies, MovieKey, created.body.movie);
  }

  /** After a film is deleted, reading it gives 404. */
  lemma DeleteThenGetMovie(params: MovieValidator.MovieIdInput, db: Db)
    requires ValidDb(db)
    requires DeleteMovie(params, db).status == 200
    ensures GetMovie(params, DeleteMovie(params, db).db).status == 404
  {
  }

  /** An id in the PATCH body overrides the one in the path: the route acts
      exactly as if the body's id had been the path's. */
  lemma PatchBodyIdWins(pathId: Value, bodyId: int, capacity: Value, db: Db)
    ensures PatchSalle(SalleValidator.IdInput(pathId), SalleValidator.UpdateSalleInput(Num(bodyId), capacity), db)
         == PatchSalle(SalleValidator.IdInput(Num(bodyId)), SalleValidator.UpdateSalleInput(Absent, capacity), db)
  {
  }

  /** A successful PATCH leaves the stored capacity inside the creation bounds. */
  lemma PatchSalleStoresGoodCapacity(params: SalleValidator.IdInput, patch: SalleValidator.UpdateSalleInput, db: Db)
    requires ValidDb(db)
    requires PatchSalle(params, patch, db).status == 200
    ensures var r := PatchSalle(params, patch, db);
            var id := MergeUpdate(params, patch).id.n;
            && FindOneBy(r.db.salles, SalleKey, id).Some?
            && SalleValidator.MinCreateCapacity <= FindOneBy(r.db.salles, SalleKey, id).value.capacity <= SalleValidator.MaxCreateCapacity
  {
  }

  /** The 404 messages of different ids differ. */
  lemma NotFoundNamesTheId(entity: string, a: int, b: int)
    requires NotFound(entity, a) == NotFound(entity, b)
    ensures a == b
  {
    var sa := Js.NumberToString(a);
    var sb := Js.NumberToString(b);
    assert entity + " " + sa + " not found" == NotFound(entity, a);
    var n := |entity| + 1;
    assert |sa| == |sb|;
    assert sa == NotFound(entity, a)[n..n + |sa|];
    assert sb == NotFound(entity, b)[n..n + |sb|];
    Js.NumberToStringInjective(a, b);
  }
}

=== FILE: salle_usecase.dfy ===
/** Listing rooms with an optional capacity bound and pagination, and the
    partial update of a room's capacity. */
module SalleUsecase {
  import opened Wrappers
  import opened Entities
  import opened Repository
  import Query
  import Js

  /** `ListSalleFilter`: a 1-based page, a page size and an optional capacity bound. */
  datatype ListSalleFilter = ListSalleFilter(page: int, limit: int, capacityMax: Option<int>)

  /** `UpdateSalleParams`: the one field an update may change. */
  datatype UpdateSalleParams = UpdateSalleParams(capacity: Option<int>)

  /** A room passes the list filter; a falsy bound (missing or 0) lets every room through. */
  predicate WithinCapacity(s: Salle, capacityMax: Option<int>) {
    !Js.Truthy(capacityMax) || s.capacity <= capacityMax.value
  }

  /** The `andWhere` condition as a predicate on rows. */
  function CapacityFilter(capacityMax: Option<int>): Salle -> bool {
    s => WithinCapacity(s, capacityMax)
  }

  /** Every room the list query matches, in storage order, before pagination. */
  function Matching(rows: seq<Salle>, capacityMax: Option<int>): (r: seq<Salle>)
    ensures forall i :: 0 <= i < |r| ==> r[i] in rows && WithinCapacity(r[i], capacityMax)
  {
    Query.Where(rows, CapacityFilter(capacityMax))
  }

  /** Every row that passes the filter is matched, as often as it is stored,
      and no row that fails it is. */
  lemma MatchingComplete(rows: seq<Salle>, capacityMax: Option<int>, x: Salle)
    ensures x in rows && WithinCapacity(x, capacityMax) ==> x in Matching(rows, capacityMax)
    ensures multiset(Matching(rows, capacityMax))[x] == if WithinCapacity(x, capacityMax) then multiset(rows)[x] else 0
  {
    Query.WhereCounts(rows, CapacityFilter(capacityMax), x);
  }

  /** `listSalle`: the requested page of matching rooms and the number of all matching rooms. */
  function ListSalle(table: Table<Salle>, filter: ListSalleFilter): (r: Query.Listing<Salle>)
    requires filter.page >= 1 && filter.limit >= 1
    ensures |r.items| <= filter.limit
    ensures |r.items| <= r.totalCount
    ensures r.totalCount == |Matching(table.rows, filter.capacityMax)|
    ensures Js.Truthy(filter.capacityMax) ==>
              forall i :: 0 <= i < |r.items| ==> r.items[i].capacity <= filter.capacityMax.value
    ensures forall i :: 0 <= i < |r.items| ==> r.items[i] in table.rows
    ensures var offset := Query.PageOffset(filter.page, filter.limit);
            && |r.items| == (if offset >= r.totalCount then 0 else Query.Min(filter.limit, r.totalCount - offset))
            && forall i :: 0 <= i < |r.items| ==> r.items[i] == Matching(table.rows, filter.capacityMax)[offset + i]
  {
    Query.GetManyAndCount(table.rows, CapacityFilter(filter.capacityMax), Query.PageOffset(filter.page, filter.limit), filter.limit)
  }

  /** Without a truthy bound the query matches the whole table. */
  lemma ListSalleUnbounded(table: Table<Salle>, filter: ListSalleFilter)
    requires filter.page >= 1 && filter.limit >= 1
    requires !Js.Truthy(filter.capacityMax)
    ensures Matching(table.rows, filter.capacityMax) == table.rows
    ensures ListSalle(table, filter).totalCount == |table.rows|
  {
    Query.WhereAll(table.rows, CapacityFilter(filter.capacityMax));
  }

  /** The count does not depend on which page is asked for. */
  lemma ListSalleCountIgnoresPage(table: Table<Salle>, a: ListSalleFilter, b: ListSalleFilter)
    requires a.page >= 1 && a.limit >= 1 && b.page >= 1 && b.limit >= 1
    requires a.capacityMax == b.capacityMax
    ensures ListSalle(table, a).totalCount == ListSalle(table, b).totalCount
  {
  }

  /** The listing is the offset/limit window of the matching rooms, so
      consecutive pages tile them (see `Query.PagesArePrefix`). */
  lemma ListSalleIsWindow(table: Table<Salle>, filter: ListSalleFilter)
    requires filter.page >= 1 && filter.limit >= 1
    ensures ListSalle(table, filter).items
            == Query.Window(Matching(table.rows, filter.capacityMax), Query.PageOffset(filter.page, filter.limit), filter.limit)
  {
  }

  /** `updateSalle`: a missing room gives `null` and no change; otherwise the
      capacity is overwritten when the new value is truthy and the row is saved. */
  function UpdateSalle(table: Table<Salle>, salleId: int, params: UpdateSalleParams): (r: (Option<Salle>, Table<Salle>))
    ensures r.0.None? <==> !Contains(table, SalleKey, salleId)
    ensures r.0.None? ==> r.1 == table
    ensures r.0.Some? ==>
              var i := IndexOf(table.rows, SalleKey, salleId).value;
              var stored := table.rows[i];
              && r.0.value.(capacity := stored.capacity) == stored
              && r.0.value.capacity == (if Js.Truthy(params.capacity) then params.capacity.value else stored.capacity)
              && r.1 == table.(rows := table.rows[i := r.0.value])
  {
    match FindOneBy(table, SalleKey, salleId)
    case None => (None, table)
    case Some(found) =>
      var updated := if Js.Truthy(params.capacity) then found.(capacity := params.capacity.value) else found;
      (Some(updated), Save(table, SalleKey, updated))
  }

  /** An update keeps primary keys distinct. */
  lemma UpdateSalleKeepsValid(table: Table<Salle>, salleId: int, params: UpdateSalleParams)
    requires Valid(table, SalleKey)
    ensures Valid(UpdateSalle(table, salleId, params).1, SalleKey)
  {
  }
}

=== FILE: salle_validator.dfy ===
/** The four room schemas: create, update, id and list. */
module SalleValidator {
  import opened Wrappers
  import opened Joi

  /** The body of a create request, before validation. */
  datatype CreateSalleInput = CreateSalleInput(name: Value, description: Value, salleType: Value, capacity: Value)

  /** A validated create request. */
  datatype CreateSalleRequest = CreateSalleRequest(name: string, description: string, salleType: string, capacity: int)

  /** Path parameters and body of an update, merged, before validation. */
  datatype UpdateSalleInput = UpdateSalleInput(id: Value, capacity: Value)

  datatype UpdateSalleRequest = UpdateSalleRequest(id: int, capacity: Option<int>)

  /** An object with a single `id` key, before validation. */
  datatype IdInput = IdInput(id: Value)

  datatype IdRequest = IdRequest(id: int)

  /** The query string of a list request, before validation. */
  datatype ListSalleInput = ListSalleInput(page: Value, limit: Value, capacityMax: Value)

  datatype ListSalleRequest = ListSalleRequest(page: Option<int>, limit: Option<int>, capacityMax: Option<int>)

  const MinCreateCapacity := 15
  const MaxCreateCapacity := 30

  /** An optional number that, when given, is at least 1. */
  predicate PositiveIfGiven(v: Value) {
    v.Absent? || (v.Num? && v.n >= 1)
  }

  /** The keys of a create body that break their rule, in schema order. */
  function CreateSalleViolations(input: CreateSalleInput): seq<string> {
    (if input.name.Str? then [] else ["name"])
    + (if input.description.Str? then [] else ["description"])
    + (if input.salleType.Str? then [] else ["type"])
    + (if input.capacity.Num? && MinCreateCapacity <= input.capacity.n <= MaxCreateCapacity then [] else ["capacity"])
  }

  /** `createSalleValidation`: three required strings and a required capacity
      in [15, 30]; every failing key is reported (`abortEarly: false`). */
  function CreateSalleValidation(input: CreateSalleInput): (r: Result<CreateSalleRequest, seq<FieldError>>)
    ensures r.Success? <==>
              && input.name.Str? && input.description.Str? && input.salleType.Str?
              && input.capacity.Num? && MinCreateCapacity <= input.capacity.n <= MaxCreateCapacity
    ensures r.Success? ==>
              r.value == CreateSalleRequest(input.name.s, input.description.s, input.salleType.s, input.capacity.n)
    ensures r.Failure? ==> Paths(r.error) == CreateSalleViolations(input)
  {
    var name := Key("name", StringRule(true), input.name);
    var description := Key("description", StringRule(true), input.description);
    var salleType := Key("type", StringRule(true), input.salleType);
    var capacity := Key("capacity", NumberRule(true, Some(MinCreateCapacity), Some(MaxCreateCapacity)), input.capacity);
    var keys := [name, description, salleType, capacity];
    ValidateNamesFailingKeys(keys);
    FailingPathsCons(name, [description, salleType, capacity]);
    FailingPathsCons(description, [salleType, capacity]);
    FailingPathsCons(salleType, [capacity]);
    FailingPathsCons(capacity, []);
    assert FailingPaths(keys) == CreateSalleViolations(input);
    var details := Validate(keys, false);
    if details != [] then Failure(details)
    else Success(CreateSalleRequest(input.name.s, input.description.s, input.salleType.s, input.capacity.n))
  }

  /** Capacities 14 and 31 are refused at creation, 15 and 30 accepted. */
  lemma CreateCapacityBoundary(name: string, description: string, salleType: string)
    ensures CreateSalleValidation(CreateSalleInput(Str(name), Str(description), Str(salleType), Num(14)))
            == Failure([FieldError("capacity", NumberMin(15))])
    ensures CreateSalleValidation(CreateSalleInput(Str(name), Str(description), Str(salleType), Num(31)))
            == Failure([FieldError("capacity", NumberMax(30))])
    ensures CreateSalleValidation(CreateSalleInput(Str(name), Str(description), Str(salleType), Num(15))).Success?
    ensures CreateSalleValidation(CreateSalleInput(Str(name), Str(description), Str(salleType), Num(30))).Success?
  {
    var name := Key("name", StringRule(true), Str(name));
    var description := Key("description", StringRule(true), Str(description));
    var salleType := Key("type", StringRule(true), Str(salleType));
    var capacityRule := NumberRule(true, Some(MinCreateCapacity), Some(MaxCreateCapacity));
    forall capacity: int
      ensures Validate([name, description, salleType, Key("capacity", capacityRule, Num(capacity))], false)
           == Details(Check("capacity", capacityRule, Num(capacity)))
    {
      var last := Key("capacity", capacityRule, Num(capacity));
      ValidateCons(name, [description, salleType, last]);
      ValidateCons(description, [salleType, last]);
      ValidateCons(salleType, [last]);
      ValidateCons(last, []);
    }
  }

  /** `updateSalleValidation`: a required numeric id and an optional capacity
      of at least 1, with no upper bound; only the first failing key is reported. */
  function UpdateSalleValidation(input: UpdateSalleInput): (r: Result<UpdateSalleRequest, seq<FieldError>>)
    ensures r.Success? <==> input.id.Num? && PositiveIfGiven(input.capacity)
    ensures r.Success? ==> r.value.id == input.id.n
    ensures r.Success? ==> (r.value.capacity.Some? <==> input.capacity.Num?)
    ensures r.Success? && input.capacity.Num? ==> r.value.capacity == Some(input.capacity.n)
    ensures r.Failure? ==> |r.error| == 1 && r.error[0].path == if input.id.Num? then "capacity" else "id"
  {
    var id := Key("id", NumberRule(true, None, None), input.id);
    var capacity := Key("capacity", NumberRule(false, Some(1), None), input.capacity);
    var keys := [id, capacity];
    ValidateNamesFailingKeys(keys);
    AbortEarlyKeepsFirst(keys);
    FailingPathsCons(id, [capacity]);
    FailingPathsCons(capacity, []);
    var details := Validate(keys, true);
    if details != [] then Failure(details)
    else Success(UpdateSalleRequest(input.id.n, OptionalNumber(input.capacity)))
  }

  /** `salleIdValidation`: a required numeric id. */
  function SalleIdValidation(input: IdInput): (r: Result<IdRequest, seq<FieldError>>)
    ensures r.Success? <==> input.id.Num?
    ensures r.Success? ==> r.value.id == input.id.n
    ensures r.Failure? ==> r.error == [FieldError("id", if input.id.Absent? then AnyRequired else NumberBase)]
  {
    var details := Validate([Key("id", NumberRule(true, None, None), input.id)], true);
    if details != [] then Failure(details)
    else Success(IdRequest(input.id.n))
  }

  /** `listSalleValidation`: `page`, `limit` and `capacityMax` are each
      optional and, when given, at least 1; only the first failing key is reported. */
  function ListSalleValidation(input: ListSalleInput): (r: Result<ListSalleRequest, seq<FieldError>>)
    ensures r.Success? <==> PositiveIfGiven(input.page) && PositiveIfGiven(input.limit) && PositiveIfGiven(input.capacityMax)
    ensures r.Success? ==>
              r.value == ListSalleRequest(OptionalNumber(input.page), OptionalNumber(input.limit), OptionalNumber(input.capacityMax))
    ensures r.Success? ==>
              && (r.value.page.Some? ==> r.value.page.value >= 1)
              && (r.value.limit.Some? ==> r.value.limit.value >= 1)
              && (r.value.capacityMax.Some? ==> r.value.capacityMax.value >= 1)
    ensures r.Failure? ==> |r.error| == 1
    ensures r.Failure? ==>
              r.error[0].path ==
                if !PositiveIfGiven(input.page) then "page"
                else if !PositiveIfGiven(input.limit) then "limit"
                else "capacityMax"
  {
    var page := Key("page", NumberRule(false, Some(1), None), input.page);
    var limit := Key("limit", NumberRule(false, Some(1), None), input.limit);
    var capacityMax := Key("capacityMax", NumberRule(false, Some(1), None), input.capacityMax);
    var keys := [page, limit, capacityMax];
    ValidateNamesFailingKeys(keys);
    AbortEarlyKeepsFirst(keys);
    FailingPathsCons(page, [limit, capacityMax]);
    FailingPathsCons(limit, [capacityMax]);
    FailingPathsCons(capacityMax, []);
    var details := Validate(keys, true);
    if details != [] then Failure(details)
    else Success(ListSalleRequest(OptionalNumber(input.page), OptionalNumber(input.limit), OptionalNumber(input.capacityMax)))
  }
}

=== FILE: wrappers.dfy ===
/** Optional values and results, standing in for `undefined`/`null` and for
    the value-or-error object a schema validation returns. */
module Wrappers {

  /** A value that may be missing (`undefined` or `null` in the program). */
  datatype Option<+T> = None | Some(value: T) {

    /** The value, or `default` when missing: the `??` operator. */
    function GetOr(default: T): T {
      match this
      case Some(v) => v
      case None => default
    }
  }

  /** Either a validated value or the list of problems found. */
  datatype Result<+R, +E> = Success(value: R) | Failure(error: E)
}
